=== FILE: README.md ===
# Alarm sounds, timers and lists of a time-utility web app

This project models the logic of a small browser time utility in Dafny and proves properties of the
model. The parts modelled are:

- The alarm-sound engine (`src/lib/audio.ts`). It holds one lazily created audio context, an
  optional repeating timer and the list of synthesis nodes the latest sounds created.
  - It has five sound profiles. Each profile schedules a fixed set of oscillators and gains at
    fixed offsets.
  - `stopAlarmSound` cancels the timer and disconnects every node.
  - `playAlarmSound` creates the context if there is none, stops, renders one profile and, when
    looping, re-renders the profile every 1200 ms.
- The stopwatch, countdown timer and focus (Pomodoro) screens. Each keeps its React state and
  its tick. Each also has a `formatTime` helper: div/mod arithmetic plus zero padding.
- The alarm list and the focus task list: `find`, `map` and `filter` over records keyed by id.

How the model is built:

- Module `Audio` makes the engine a class, `AlarmEngine`.
  - Nodes are tokens with consecutive ids. Each node also carries, as data, what it plays: its
    wave, its frequency and gain automation, and its start and stop times, with times as exact
    reals in seconds.
  - `Valid()` says two things. The timer exists only with a context. Every token ever created
    is either still active or was disconnected, exactly once.
  - The context is an object, `AudioContext`. A newly created one is distinct from every earlier
    one. That a context, once created, is kept and never replaced is part of every method's
    contract.
- Modules `Stopwatch`, `Timer`, `Focus` and `Alarm` make each screen a class. The class's fields
  are the component's state. Each handler, each effect run and each interval firing is one method.
- Module `Text` holds the JavaScript string operations the screens use:
  - `Number.prototype.toString` on a non-negative integer;
  - `padStart(2, '0')`;
  - `String.prototype.trim`, with the ECMAScript white-space and line-terminator set.

The screens use the shared engine: the timer and the alarm screen start a looped sound, the focus
screen a single one. Wall-clock times, the audio clock, the current "HH:MM" string, the weekday and
the task id are all parameters.

## Model

| member | source | states |
|---|---|---|
| Audio.Resolve | src/lib/audio.ts:83 | the profile chosen for a sound id has that name, or is digital when no profile has that name |
| Audio.ResolveName | src/lib/audio.ts:37-76 | every profile's own name selects that profile |
| Audio.UnknownRendersAsDigital | src/lib/audio.ts:83 | a sound id that names no profile renders exactly the digital nodes |
| Audio.Expand | src/lib/audio.ts:21-35 | a sequence of `createOscillator` calls pushes exactly two nodes per call |
| Audio.ExpandAt | src/lib/audio.ts:26-34 | node 2k is the k-th tone's oscillator at its frequency, starting at its start time and stopping after its duration; node 2k+1 is its gain: 0 at the start, the volume 0.05 s later, 0.001 at the end |
| Audio.ExpandSnoc | src/lib/audio.ts:34 | one more `createOscillator` call appends its two nodes after the earlier ones |
| Audio.Render | src/lib/audio.ts:37-76 | one rendering pushes 4 nodes for digital, siren and pulse, 8 for chime and 6 for retro |
| Audio.VoiceOffsets | src/lib/audio.ts:38-75 | tone k of digital, chime, pulse and retro starts at the anchor time plus offset k: (0, 0.3), (0, 0.1, 0.2, 0.3), (0, 0.5) and (0, 0.1, 0.2) |
| Audio.ExpandWellTimed | src/lib/audio.ts:26-33 | tones that outlast their 0.05 s attack give nodes whose events are in time order within the tone, each oscillator stopping after it starts, and whose exponential ramp aims at a positive gain |
| Audio.RenderFitsLoopPeriod | src/lib/audio.ts:37-76 | every node of a rendering is well timed and finished within 1.2 s of its anchor |
| Audio.WellTimedTimes | src/lib/audio.ts:26-33 | a well-timed node names no start, stop or automation time outside its window |
| Audio.RenderingsInOrder | src/lib/audio.ts:86-90 | two renderings anchored at least 1200 ms apart, as the repeating timer fires them, do not overlap: every time the first schedules comes no later than every time the second schedules |
| Audio.SoundFnAsWritten | src/lib/audio.ts:37-83 | as written, the lookup yields an inherited `Object.prototype` member exactly for the inherited keys, and agrees with Resolve on every other string |
| Audio.InheritedKeySkipsFallback | src/lib/audio.ts:83-85 | as written, the sound id "toString" schedules no node, where the fallback would schedule digital's four |
| Audio.AlarmEngine.constructor | src/lib/audio.ts:2-4 | no context, no timer, no node |
| Audio.AlarmEngine.CleanNodes | src/lib/audio.ts:6-11 | every active node is disconnected once, in list order; the list ends empty; the rest is unchanged |
| Audio.AlarmEngine.Stop | src/lib/audio.ts:13-19 | afterwards there is no timer and no node; the disconnected nodes are the ones that were active; the context is kept |
| Audio.StopTwice | src/lib/audio.ts:13-19 | a second stop disconnects nothing more and leaves the engine silent |
| Audio.AlarmEngine.CreateOscillator | src/lib/audio.ts:21-35 | nothing without a context; otherwise the oscillator and gain of the tone are appended, with fresh tokens, after the unchanged earlier nodes |
| Audio.AlarmEngine.CreateTwo | src/lib/audio.ts:38-41 | two consecutive `createOscillator` calls append both tones' nodes in call order |
| Audio.AlarmEngine.RenderChime | src/lib/audio.ts:62-66 | the chime loop appends the four chime tones' eight nodes in frequency order |
| Audio.AlarmEngine.ChimeStep | src/lib/audio.ts:63-65 | one pass of the chime's `forEach` appends the i-th chime tone's two nodes after the first i tones' nodes |
| Audio.AlarmEngine.RenderRetro | src/lib/audio.ts:71-75 | the three retro calls append six nodes in call order |
| Audio.AlarmEngine.RenderProfile | src/lib/audio.ts:37-76 | calling a profile's function appends exactly that profile's rendering after the earlier nodes |
| Audio.AlarmEngine.Play | src/lib/audio.ts:78-91 | a new context is created exactly when there is none, and an existing one is kept; all earlier nodes are disconnected; the active nodes are exactly one rendering of the resolved profile; the timer is set only when looping |
| Audio.AlarmEngine.LoopTick | src/lib/audio.ts:87-89 | a firing appends one more rendering of the captured profile and keeps every earlier node; without a timer nothing changes |
| Audio.ChimeLoopScenario | src/lib/audio.ts:78-91 | a looped chime holds 8 nodes, 32 after three firings, 0 after stop, and a firing after stop adds none |
| Text.DecimalString | src/features/Stopwatch.tsx:40 | the decimal digits of a non-negative integer, without a leading zero |
| Text.DecimalStringValue | src/features/Stopwatch.tsx:40 | the decimal digits read back as the number |
| Text.DecimalStringLength | src/features/Stopwatch.tsx:40-42 | the decimal string has one digit below 10, two below 100, and at least two from 10 on |
| Text.PadStart | src/features/Stopwatch.tsx:40-42 | padding keeps the string as a suffix, fills the front and reaches at least the width |
| Text.LeadingZerosValue | src/features/Stopwatch.tsx:40-42 | leading zeros do not change the value of a digit string |
| Text.TwoDigits | src/features/Stopwatch.tsx:40-42 | a padded field is all digits, at least two, exactly two below 100, without a leading zero when longer, and reads back as its number |
| Text.TrimStart | src/features/Focus.tsx:56 | leading white space is removed: the rest is a suffix and starts with a non-space |
| Text.TrimEnd | src/features/Focus.tsx:56 | trailing white space is removed: the rest is a prefix and ends with a non-space |
| Text.Trim | src/features/Focus.tsx:56 | the trimmed text is empty exactly when the text is white space only |
| Stopwatch.Split | src/features/Stopwatch.tsx:34-37 | seconds below 60, hundredths below 100, and minutes*60000 + seconds*1000 + hundredths*10 == ms - ms mod 10 |
| Stopwatch.SplitUnique | src/features/Stopwatch.tsx:34-37 | Split is the only such decomposition, so minutes are ms div 60000 |
| Stopwatch.FormatTime | src/features/Stopwatch.tsx:34-44 | three digit strings, seconds and hundredths exactly two digits, minutes at least two (two below 100 minutes, no leading zero when longer), reading back as the time up to its last 10 ms |
| Stopwatch.LapDiffs | src/features/Stopwatch.tsx:103 | one split per lap |
| Stopwatch.LapDiffsTelescope | src/features/Stopwatch.tsx:101-104 | the splits from lap i to the oldest add up to lap i's time, so all splits add up to the newest lap |
| Stopwatch.LapDiffsNonNegative | src/features/Stopwatch.tsx:103 | on a newest-first lap list every split is non-negative |
| Stopwatch.LapNumbering | src/features/Stopwatch.tsx:101-108 | lap numbers run from the lap count down to 1, and a new lap leaves the older laps' numbers as they were |
| Stopwatch.Stopwatch.constructor | src/features/Stopwatch.tsx:6-9 | time 0, not running, no laps, no interval |
| Stopwatch.Stopwatch.StartStopwatch | src/features/Stopwatch.tsx:11-21 | running is toggled; the interval runs exactly while running |
| Stopwatch.Stopwatch.ResetStopwatch | src/features/Stopwatch.tsx:23-28 | time 0, no laps, not running |
| Stopwatch.Stopwatch.AddLap | src/features/Stopwatch.tsx:30-32 | the current time goes in front of the unchanged earlier laps; laps stay newest first |
| Stopwatch.Stopwatch.Tick | src/features/Stopwatch.tsx:17-19 | a firing adds exactly 10 ms while running and nothing once cleared |
| Timer.Split | src/features/Timer.tsx:63-66 | minutes and seconds below 60, and h*3600 + m*60 + s == total |
| Timer.CustomTotalRoundTrip | src/features/Timer.tsx:38-42 | a custom hours, minutes and seconds entry (minutes and seconds below 60) splits back into the same fields |
| Timer.FormatTime | src/features/Timer.tsx:63-72 | three digit strings: minutes and seconds exactly two digits below 60, hours at least two with no leading zero when longer, reading back as the total |
| Timer.PresetSplits | src/features/Timer.tsx:136-139 | each quick preset (1, 5, 10, 15, 30, 60 minutes) splits into zero seconds and at most one hour, with hours and minutes adding back up to the preset |
| Timer.Timer.constructor | src/features/Timer.tsx:9-12 | length 0, time left 0, not running, not ringing |
| Timer.Timer.StartTimer | src/features/Timer.tsx:16-23 | nothing at zero; otherwise running is toggled, and a ringing alarm is silenced |
| Timer.Timer.ResetTimer | src/features/Timer.tsx:25-30 | not running, not ringing, the sound stopped, time left back to the set length |
| Timer.Timer.SetPreset | src/features/Timer.tsx:32-36 | stopped, with the set length and the time left both equal to the preset |
| Timer.Timer.PresetButton | src/features/Timer.tsx:136-139 | a preset button stops the timer and loads its minutes times 60 as both the set length and the time left |
| Timer.Timer.HandleCustomSubmit | src/features/Timer.tsx:38-42 | the preset becomes h*3600 + m*60 + s |
| Timer.Timer.Tick | src/features/Timer.tsx:45-48 | one second off only while running with time left, so time left never goes below zero or above the set length |
| Timer.Timer.CountdownEffect | src/features/Timer.tsx:44-56 | at zero while running it stops; with sound on, the old nodes are disconnected, the active nodes are exactly one rendering of the resolved profile, the looped timer is set and the screen rings; otherwise the sound and the ringing flag are unchanged |
| Timer.Timer.StopAlarm | src/features/Timer.tsx:86 | the sound is stopped and the ringing cleared; the countdown is unchanged |
| Focus.SessionDurations | src/features/Focus.tsx:18-22 | work lasts 1500 s, a short break 300 s and a long break 900 s |
| Focus.FormatTime | src/features/Focus.tsx:48-52 | two digit fields around a colon, the seconds below 60, minutes*60 + seconds == total, minutes two digits below 100 minutes and without a leading zero when longer |
| Focus.ToggleTasks | src/features/Focus.tsx:61-63 | same length and order; ids and texts kept; completed flipped exactly on tasks with that id |
| Focus.ToggleTasksTwice | src/features/Focus.tsx:61-63 | toggling the same id twice restores the list |
| Focus.Focus.constructor | src/features/Focus.tsx:11-15 | a 25-minute work session, not running, no tasks, empty input |
| Focus.Focus.SwitchSession | src/features/Focus.tsx:42-46 | stopped, on the chosen session, with that session's full length |
| Focus.Focus.ResetTime | src/features/Focus.tsx:106 | time left back to the current session's length; session, running flag, tasks and input kept |
| Focus.Focus.ToggleRunning | src/features/Focus.tsx:113 | running is toggled; the countdown, session, tasks and input are unchanged |
| Focus.Focus.Tick | src/features/Focus.tsx:27-30 | one second off only while running with time left; everything else kept |
| Focus.Focus.CountdownEffect | src/features/Focus.tsx:26-35 | at zero while running it stops and, with sound on, disconnects the old nodes and plays exactly one rendering of the resolved profile without a timer; otherwise the sound is unchanged; countdown, session, tasks and input kept |
| Focus.Focus.SetNewTask | src/features/Focus.tsx:139 | the input holds the typed text; everything else kept |
| Focus.Focus.AddTask | src/features/Focus.tsx:54-59 | white-space-only input changes nothing; otherwise one uncompleted task with the untrimmed text goes in front and the input is cleared |
| Focus.Focus.ToggleTask | src/features/Focus.tsx:61-63 | the task list becomes ToggleTasks of the old list; everything else kept |
| Alarm.FindActive | src/features/Alarm.tsx:29-34 | none exactly when no alarm fires (enabled, at this HH:MM, on this weekday, at second 0); otherwise the first firing alarm in list order |
| Alarm.ToggleAlarms | src/features/Alarm.tsx:47-49 | same length and order; ids, times, labels and days kept; enabled flipped exactly on alarms with that id |
| Alarm.ToggleAlarmsTwice | src/features/Alarm.tsx:47-49 | toggling the same id twice restores the list |
| Alarm.DeleteAlarms | src/features/Alarm.tsx:51-53 | no alarm with that id remains, every other alarm does, the survivors keep their order, and the result is shorter by exactly the number of alarms with that id |
| Alarm.SubsequenceBound | src/features/Alarm.tsx:52 | an order-preserving selection without that id leaves out at least every alarm with that id |
| Alarm.DeleteAlarmsUnique | src/features/Alarm.tsx:51-53 | DeleteAlarms's contract determines the list: any list meeting it is DeleteAlarms's result |
| Alarm.SubsequenceSkip | src/features/Alarm.tsx:52 | skipping one more source element keeps an order-preserving selection |
| Alarm.SubsequenceTail | src/features/Alarm.tsx:52 | dropping the first selected element keeps an order-preserving selection |
| Alarm.DeleteAlarmsIdempotent | src/features/Alarm.tsx:51-53 | deleting an id nobody has changes nothing, and deleting twice is deleting once |
| Alarm.AlarmScreen.constructor | src/features/Alarm.tsx:19-23 | not ringing, with the two default alarms |
| Alarm.AlarmScreen.CheckAlarms | src/features/Alarm.tsx:25-40 | only when some alarm fires and sound is on: the old nodes are disconnected, the active nodes are exactly one rendering of the resolved profile, the looped timer is set and the screen rings; otherwise the sound and the flag are unchanged |
| Alarm.AlarmScreen.HandleStopAlarm | src/features/Alarm.tsx:42-45 | the sound is stopped and ringing is false |
| Alarm.AlarmScreen.ToggleAlarm | src/features/Alarm.tsx:47-49 | the list becomes ToggleAlarms of the old list |
| Alarm.AlarmScreen.DeleteAlarm | src/features/Alarm.tsx:51-53 | the list becomes DeleteAlarms of the old list |

## Left out

- Web Audio internals are not modelled. These are the real `AudioContext` construction, `resume()` on a suspended context, `connect` and the `destination` graph, and acoustic output. The context is an object with no fields, the nodes are tokens, and what a node plays is data.
- Audio.AlarmEngine.CleanNodes: a `disconnect` that throws is caught and ignored, so it is modelled as always recorded; the model does not record which disconnects failed.
- Real `setInterval`/`clearInterval` timing and React's effect scheduling are not modelled. The same goes for re-renders and stale closures. Each interval firing and each effect run is an explicit method call, and a cleared interval is one that no longer fires.
- The timer's progress percentage (src/features/Timer.tsx:75) is floating point and is left out. Audio times are exact reals, not IEEE doubles.
- `Date.now()` task ids are left out; the id is a parameter of Focus.Focus.AddTask.
- `toLocaleTimeString`, `toLocaleDateString` and `getSeconds` are left out. The current "HH:MM", the short weekday and the seconds are parameters of Alarm.AlarmScreen.CheckAlarms.
- The settings context (localStorage and `JSON.parse`) is not part of this model. `soundEnabled` and `selectedSound` are parameters.
- The clock screen, the app shell, the sidebar, the layout and all JSX rendering are not part of this model. This includes the disabled state of buttons, such as the stopwatch's lap button.
- The timer's custom-input fields are left out. Their `parseInt(...) || 0` parsing is not modelled, and neither is the HTML `min`/`max`. Fields are naturals, and Timer.CustomTotalRoundTrip assumes the form's bound of 59 for minutes and seconds.
- Audio.SirenUnits: the sawtooth's frequency comes only from the LFO connection and is not scheduled, so its frequency automation is empty.
- Audio.RenderAsWritten: an inherited member renders nothing. The model does not distinguish the members that throw a `TypeError` when called from the three that return without sound; none of them schedules a node.
- Audio.AlarmEngine.Play: the engine uses the intended lookup Audio.Resolve, under which every unknown id plays digital. As written, no id inherited from `Object.prototype` schedules a node. For "toString", "constructor" and "isPrototypeOf" the unbound call returns, and with `loop` a timer is set whose firings schedule nothing. The other nine ("valueOf", "hasOwnProperty", "propertyIsEnumerable", "toLocaleString", the four `__defineGetter__`-style members and "__proto__") throw a `TypeError` out of `playAlarmSound` before the timer is set, so the calling screen does not set its ringing flag either. This as-written behaviour is modelled only by Audio.SoundFnAsWritten and Audio.InheritedKeySkipsFallback (see Findings), not by the engine's state.
- Audio.AlarmEngine.LoopTick: the audio clock `now` of a firing is a parameter; the model records the 1200 ms period in the timer but does not tie consecutive firings' `now` to it. Audio.RenderingsInOrder states the non-overlap for firings that are that far apart.
- Audio.AlarmEngine.Play: a repeating-timer handle of 0 (falsy in `stopAlarmSound`'s check) is not modelled; a handle is present or absent.

## Findings

| source | as written | input that shows it | evidently intended | confidence | as-written member | corrected member |
|---|---|---|---|---|---|---|
| src/lib/audio.ts:83 | `sounds[type] \|\| sounds.digital` looks the id up on a plain object literal, so keys inherited from `Object.prototype` yield a truthy non-sound and the fallback is skipped | `selectedSound = "toString"`: `playAlarmSound` calls `Object.prototype.toString` and schedules no node | every id that names no profile falls back to digital | low (not executed; the id comes from stored settings, so it needs a tampered or stale value) | Audio.InheritedKeySkipsFallback | Audio.UnknownRendersAsDigital |

=== FILE: alarm.dfy ===
/** The alarm screen of `src/features/Alarm.tsx`: a list of alarms keyed by id, the check that runs
    whenever the clock ticks, and the ringing flag. The current "HH:MM" string, the short weekday
    name and the seconds are inputs. */
module Alarm {
  import Audio

  datatype Option<T> = None | Some(value: T)

  datatype Alarm = Alarm(id: string, time: string, title: string, enabled: bool, days: seq<string>)

  /** The `find` predicate: enabled, set for this minute and this weekday, at second 0. */
  predicate Fires(a: Alarm, currentTime: string, currentDay: string, seconds: nat)
  {
    a.enabled && a.time == currentTime && currentDay in a.days && seconds == 0
  }

  /** `alarms.find(...)`: the first alarm in list order that fires, or none when none does. */
  function FindActive(alarms: seq<Alarm>, currentTime: string, currentDay: string, seconds: nat)
    : (r: Option<Alarm>)
    ensures r.None? <==> forall i :: 0 <= i < |alarms| ==> !Fires(alarms[i], currentTime, currentDay, seconds)
    ensures r.Some? ==>
      (exists i :: 0 <= i < |alarms| && alarms[i] == r.value &&
        Fires(alarms[i], currentTime, currentDay, seconds) &&
        (forall j :: 0 <= j < i ==> !Fires(alarms[j], currentTime, currentDay, seconds)))
  {
    if alarms == [] then None
    else if Fires(alarms[0], currentTime, currentDay, seconds) then Some(alarms[0])
    else
      var r := FindActive(alarms[1..], currentTime, currentDay, seconds);
      assert forall i :: 1 <= i < |alarms| ==> alarms[i] == alarms[1..][i - 1];
      r
  }

  /** `toggleAlarm`'s `map`: alarms with that id have `enabled` flipped; everything else, the order
      and the length stay as they were. */
  function ToggleAlarms(alarms: seq<Alarm>, id: string): (r: seq<Alarm>)
    ensures |r| == |alarms|
    ensures forall i :: 0 <= i < |r| ==>
      r[i].id == alarms[i].id && r[i].time == alarms[i].time && r[i].title == alarms[i].title &&
      r[i].days == alarms[i].days
    ensures forall i :: 0 <= i < |r| ==>
      r[i].enabled == (if alarms[i].id == id then !alarms[i].enabled else alarms[i].enabled)
  {
    seq(|alarms|, i requires 0 <= i < |alarms| =>
      if alarms[i].id == id then alarms[i].(enabled := !alarms[i].enabled) else alarms[i])
  }

  /** Toggling the same id twice restores the list. */
  lemma ToggleAlarmsTwice(alarms: seq<Alarm>, id: string)
    ensures ToggleAlarms(ToggleAlarms(alarms, id), id) == alarms
  {
    var r := ToggleAlarms(ToggleAlarms(alarms, id), id);
    assert forall i :: 0 <= i < |alarms| ==> r[i] == alarms[i];
  }

  /** `s` is `t` with some elements left out, the rest in their order. */
  predicate IsSubsequence(s: seq<Alarm>, t: seq<Alarm>)
    decreases |t|
  {
    if s == [] then true
    else if t == [] then false
    else if s[0] == t[0] then IsSubsequence(s[1..], t[1..])
    else IsSubsequence(s, t[1..])
  }

  /** The number of alarms with that id. */
  function CountId(alarms: seq<Alarm>, id: string): (n: nat)
    ensures n <= |alarms|
  {
    if alarms == [] then 0 else (if alarms[0].id == id then 1 else 0) + CountId(alarms[1..], id)
  }

  /** `deleteAlarm`'s `filter`: no alarm with that id remains, every other alarm does, the survivors
      keep their original order, and exactly the alarms with that id are gone. */
  function DeleteAlarms(alarms: seq<Alarm>, id: string): (r: seq<Alarm>)
    ensures forall i :: 0 <= i < |r| ==> r[i].id != id
    ensures forall i :: 0 <= i < |alarms| && alarms[i].id != id ==> alarms[i] in r
    ensures IsSubsequence(r, alarms)
    ensures |r| + CountId(alarms, id) == |alarms|
  {
    if alarms == [] then []
    else
      var rest := DeleteAlarms(alarms[1..], id);
      assert forall i :: 1 <= i < |alarms| ==> alarms[i] == alarms[1..][i - 1];
      if alarms[0].id == id then
        SubsequenceSkip(rest, alarms);
        rest
      else
        assert ([alarms[0]] + rest)[1..] == rest;
        [alarms[0]] + rest
  }

  lemma {:induction false} SubsequenceSkip(s: seq<Alarm>, t: seq<Alarm>)
    requires t != [] && IsSubsequence(s, t[1..])
    ensures IsSubsequence(s, t)
    decreases |s| + |t|
  {
    if s != [] && s[0] == t[0] {
      if |t| > 1 && s[1..] != [] {
        SubsequenceTail(s, t[1..]);
      }
    }
  }

  /** Dropping the first element of a subsequence keeps it a subsequence. */
  lemma {:induction false} SubsequenceTail(s: seq<Alarm>, t: seq<Alarm>)
    requires s != [] && IsSubsequence(s, t)
    ensures IsSubsequence(s[1..], t)
    decreases |s| + |t|
  {
    if t != [] {
      if s[0] == t[0] {
        if s[1..] != [] {
          SubsequenceTail(s[1..], t[1..]);
          SubsequenceSkip(s[1..], t);
        }
      } else {
        SubsequenceTail(s, t[1..]);
        SubsequenceSkip(s[1..], t);
      }
    }
  }

  /** A subsequence without that id leaves out at least the alarms with that id. */
  lemma {:induction false} SubsequenceBound(s: seq<Alarm>, t: seq<Alarm>, id: string)
    requires (forall i :: 0 <= i < |s| ==> s[i].id != id) && IsSubsequence(s, t)
    ensures |s| + CountId(t, id) <= |t|
    decreases |t|
  {
    if t != [] {
      if s != [] && s[0] == t[0] {
        SubsequenceBound(s[1..], t[1..], id);
      } else {
        SubsequenceBound(s, t[1..], id);
      }
    }
  }

  /** The contract of DeleteAlarms determines its result: the only list without that id, in order
      within the original and one element shorter per alarm with that id, is the filtered list. */
  lemma {:induction false} DeleteAlarmsUnique(r: seq<Alarm>, alarms: seq<Alarm>, id: string)
    requires forall i :: 0 <= i < |r| ==> r[i].id != id
    requires IsSubsequence(r, alarms) && |r| + CountId(alarms, id) == |alarms|
    ensures r == DeleteAlarms(alarms, id)
    decreases |alarms|
  {
    if alarms != [] {
      var a, tail := alarms[0], alarms[1..];
      if a.id == id {
        assert r == [] || r[0] != a;
        DeleteAlarmsUnique(r, tail, id);
      } else if r != [] && r[0] == a {
        DeleteAlarmsUnique(r[1..], tail, id);
        assert r == [a] + r[1..];
      } else {
        if r != [] {
          SubsequenceBound(r, tail, id);
        }
        assert false;
      }
    }
  }

  /** Deleting an id nobody has changes nothing, and deleting twice is deleting once. */
  lemma {:induction false} DeleteAlarmsIdempotent(alarms: seq<Alarm>, id: string)
    ensures (forall i :: 0 <= i < |alarms| ==> alarms[i].id != id) ==> DeleteAlarms(alarms, id) == alarms
    ensures DeleteAlarms(DeleteAlarms(alarms, id), id) == DeleteAlarms(alarms, id)
  {
    if alarms != [] {
      DeleteAlarmsIdempotent(alarms[1..], id);
      var r := DeleteAlarms(alarms, id);
      if alarms[0].id != id {
        assert r[1..] == DeleteAlarms(alarms[1..], id);
      }
    }
  }

  /** The component's state, with the module-level sound engine. */
  class AlarmScreen {
    var alarms: seq<Alarm>
    var isRinging: bool
    const audio: Audio.AlarmEngine

    ghost predicate Valid()
      reads this, audio
    {
      audio.Valid()
    }

    /** The two alarms the screen starts with. */
    constructor (audio: Audio.AlarmEngine)
      requires audio.Valid()
      ensures Valid() && this.audio == audio && !isRinging
      ensures alarms == [
        Alarm("1", "07:00", "Morning Wakeup", true, ["Mon", "Tue", "Wed", "Thu", "Fri"]),
        Alarm("2", "08:30", "Gym Session", false, ["Mon", "Wed", "Fri"])]
    {
      this.audio := audio;
      isRinging := false;
      alarms := [
        Alarm("1", "07:00", "Morning Wakeup", true, ["Mon", "Tue", "Wed", "Thu", "Fri"]),
        Alarm("2", "08:30", "Gym Session", false, ["Mon", "Wed", "Fri"])];
    }

    /** The effect run on every clock tick: when some alarm fires and sound is on, the looped alarm
        starts (again) and the screen rings; otherwise nothing changes. */
    method CheckAlarms(currentTime: string, currentDay: string, seconds: nat,
                       soundEnabled: bool, selectedSound: string, now: real)
      requires Valid()
      modifies this, audio
      ensures Valid() && alarms == old(alarms)
      ensures FindActive(alarms, currentTime, currentDay, seconds).Some? && soundEnabled ==>
        isRinging && audio.alarmInterval == Audio.Some(Audio.Repeat(Audio.Resolve(selectedSound), Audio.LOOP_PERIOD_MS)) &&
        audio.activeNodes == Audio.Tagged(Audio.Render(Audio.Resolve(selectedSound), now), old(audio.nextId)) &&
        audio.released == old(audio.released) + Audio.Ids(old(audio.activeNodes))
      ensures !(FindActive(alarms, currentTime, currentDay, seconds).Some? && soundEnabled) ==>
        isRinging == old(isRinging) && unchanged(audio)
    {
      var activeAlarm := FindActive(alarms, currentTime, currentDay, seconds);
      if activeAlarm.Some? && soundEnabled {
        audio.Play(true, selectedSound, now);
        isRinging := true;
      }
    }

    /** The "STOP ALARM" button. */
    method HandleStopAlarm()
      requires Valid()
      modifies this, audio
      ensures Valid() && audio.Silent() && !isRinging && alarms == old(alarms)
    {
      audio.Stop();
      isRinging := false;
    }

    method ToggleAlarm(id: string)
      requires Valid()
      modifies this
      ensures Valid() && alarms == ToggleAlarms(old(alarms), id) && isRinging == old(isRinging)
    {
      alarms := ToggleAlarms(alarms, id);
    }

    method DeleteAlarm(id: string)
      requires Valid()
      modifies this
      ensures Valid() && alarms == DeleteAlarms(old(alarms), id) && isRinging == old(isRinging)
    {
      alarms := DeleteAlarms(alarms, id);
    }
  }
}

=== FILE: audio.dfy ===
/** The alarm-sound engine of `src/lib/audio.ts`: one lazily created audio context, an optional
    repeating timer and the list of synthesis nodes the latest sounds created. The context and the
    nodes are opaque tokens; what a node would play is kept as data (its wave, its frequency and
    gain automation, its start and stop times), with times as exact reals in seconds. */
module Audio {

  datatype Option<T> = None | Some(value: T)

  datatype Wave = Square | Sine | Sawtooth | Triangle

  /** One automation event on an audio parameter. */
  datatype ParamEvent =
    | SetValueAt(value: real, time: real)
    | LinearRampTo(value: real, time: real)
    | ExponentialRampTo(value: real, time: real)
  {
    function Time(): real
    {
      match this
      case SetValueAt(_, t) => t
      case LinearRampTo(_, t) => t
      case ExponentialRampTo(_, t) => t
    }
  }

  /** What a synthesis node does once connected. */
  datatype Unit =
    | Oscillator(wave: Wave, frequency: seq<ParamEvent>, start: real, stop: real)
    | Gain(gain: seq<ParamEvent>)

  /** A synthesis node: an opaque token (its id) and what it plays. */
  datatype Node = Node(id: nat, unit: Unit)

  /** The arguments of one `createOscillator` call. */
  datatype Tone = Tone(wave: Wave, freq: real, start: real, duration: real, volume: real)

  datatype Profile = Digital | Siren | Chime | Pulse | Retro

  /** The repeating timer of a looped sound; its callback re-renders the profile it captured. */
  datatype Repeat = Repeat(profile: Profile, periodMs: nat)

  /** The shared audio context: an object, so a newly created one is distinct from any earlier one. */
  class AudioContext {
    constructor () {}
  }

  /** Seconds from a tone's start to the end of its linear attack. */
  const ATTACK: real := 0.05
  /** The near-silent gain every tone decays to. */
  const SILENCE: real := 0.001
  const LOOP_PERIOD_MS: nat := 1200
  const CHIME_FREQS: seq<real> := [440.0, 554.0, 659.0, 880.0]

  function Name(p: Profile): string
  {
    match p
    case Digital => "digital"
    case Siren => "siren"
    case Chime => "chime"
    case Pulse => "pulse"
    case Retro => "retro"
  }

  /** `sounds[type] || sounds.digital`, with the lookup restricted to the five profiles: the profile
      of that name, or `digital` when no profile has that name. */
  function Resolve(id: string): (p: Profile)
    ensures Name(p) == id || (p == Digital && forall q :: Name(q) != id)
  {
    if id == "siren" then Siren
    else if id == "chime" then Chime
    else if id == "pulse" then Pulse
    else if id == "retro" then Retro
    else Digital
  }

  /** The two nodes one `createOscillator` call creates, in push order: the oscillator, then its gain
      with the attack-and-decay envelope. */
  function ToneUnits(t: Tone): seq<Unit>
  {
    [ Oscillator(t.wave, [SetValueAt(t.freq, t.start)], t.start, t.start + t.duration),
      Gain([SetValueAt(0.0, t.start), LinearRampTo(t.volume, t.start + ATTACK),
            ExponentialRampTo(SILENCE, t.start + t.duration)]) ]
  }

  /** The nodes of a sequence of `createOscillator` calls, in push order. */
  function Expand(ts: seq<Tone>): (r: seq<Unit>)
    ensures |r| == 2 * |ts|
  {
    if ts == [] then [] else Expand(ts[..|ts| - 1]) + ToneUnits(ts[|ts| - 1])
  }

  /** Node 2k of a tone sequence is the k-th tone's oscillator, running from its start for its
      duration at its frequency, and node 2k+1 is its gain: 0 at the start, the tone's volume
      ATTACK seconds later and SILENCE at the end. */
  lemma {:induction false} ExpandAt(ts: seq<Tone>, k: nat)
    requires k < |ts|
    ensures Expand(ts)[2 * k] ==
      Oscillator(ts[k].wave, [SetValueAt(ts[k].freq, ts[k].start)], ts[k].start, ts[k].start + ts[k].duration)
    ensures Expand(ts)[2 * k + 1] ==
      Gain([SetValueAt(0.0, ts[k].start), LinearRampTo(ts[k].volume, ts[k].start + ATTACK),
            ExponentialRampTo(SILENCE, ts[k].start + ts[k].duration)])
  {
    var n := |ts| - 1;
    if k < n {
      ExpandAt(ts[..n], k);
    }
  }

  lemma {:induction false} ExpandSnoc(ts: seq<Tone>, t: Tone)
    ensures Expand(ts + [t]) == Expand(ts) + ToneUnits(t)
  {
    assert (ts + [t])[..|ts|] == ts;
  }

  /** The tones of the four enveloped profiles, in call order. */
  function Voices(p: Profile, now: real): (ts: seq<Tone>)
    requires p != Siren
  {
    match p
    case Digital => [Tone(Square, 1000.0, now, 0.2, 0.1), Tone(Square, 1000.0, now + 0.3, 0.2, 0.1)]
    case Chime => ChimeTones(now, 4)
    case Pulse => [Tone(Sine, 200.0, now, 0.4, 0.2), Tone(Sine, 150.0, now + 0.5, 0.4, 0.2)]
    case Retro =>
      [Tone(Triangle, 600.0, now, 0.1, 0.1), Tone(Triangle, 800.0, now + 0.1, 0.1, 0.1),
       Tone(Triangle, 1000.0, now + 0.2, 0.1, 0.1)]
  }

  /** The first n chime tones: the i-th at CHIME_FREQS[i], 0.1 s after the previous one. */
  function ChimeTones(now: real, n: nat): seq<Tone>
    requires n <= |CHIME_FREQS|
  {
    seq(n, i requires 0 <= i < n => Tone(Sine, CHIME_FREQS[i], now + i as real * 0.1, 0.8, 0.05))
  }

  /** The siren's four nodes in push order: the sawtooth oscillator (its frequency driven by the
      LFO, not scheduled), the 2 Hz sine LFO, the LFO's 150 Hz depth gain and the output gain 0.05. */
  function SirenUnits(now: real): seq<Unit>
  {
    [ Oscillator(Sawtooth, [], now, now + 1.0),
      Oscillator(Sine, [SetValueAt(2.0, now)], now, now + 1.0),
      Gain([SetValueAt(150.0, now)]),
      Gain([SetValueAt(0.05, now)]) ]
  }

  /** The start offsets, after the anchor time, of the enveloped profiles' tones. */
  function Offsets(p: Profile): seq<real>
    requires p != Siren
  {
    match p
    case Digital => [0.0, 0.3]
    case Chime => [0.0, 0.1, 0.2, 0.3]
    case Pulse => [0.0, 0.5]
    case Retro => [0.0, 0.1, 0.2]
  }

  /** The nodes one rendering of a profile anchored at `now` pushes, in push order; digital, siren and
      pulse push four nodes, retro six and chime eight. */
  function Render(p: Profile, now: real): (r: seq<Unit>)
    ensures |r| == match p
      case Digital => 4
      case Siren => 4
      case Chime => 8
      case Pulse => 4
      case Retro => 6
  {
    if p == Siren then SirenUnits(now) else Expand(Voices(p, now))
  }

  /** Each tone of an enveloped profile starts at the anchor time plus that profile's offset. */
  lemma VoiceOffsets(p: Profile, now: real, k: nat)
    requires p != Siren && k < |Voices(p, now)|
    ensures |Voices(p, now)| == |Offsets(p)| && Voices(p, now)[k].start == now + Offsets(p)[k]
  {
  }

  predicate Increasing(ev: seq<ParamEvent>)
  {
    forall i, j :: 0 <= i < j < |ev| ==> ev[i].Time() < ev[j].Time()
  }

  /** A node's schedule is sane and falls within [from, until]: an oscillator stops after it starts,
      automation events come in increasing time order, and an exponential ramp aims at a positive value. */
  predicate WellTimed(u: Unit, from: real, until: real)
  {
    match u
    case Oscillator(_, freq, start, stop) =>
      from <= start < stop <= until &&
      (forall i :: 0 <= i < |freq| ==> start <= freq[i].Time() <= stop) && Increasing(freq)
    case Gain(ev) =>
      (forall i :: 0 <= i < |ev| ==> from <= ev[i].Time() <= until) && Increasing(ev) &&
      (forall i :: 0 <= i < |ev| && ev[i].ExponentialRampTo? ==> ev[i].value > 0.0)
  }

  /** Tones that outlast their attack, starting no earlier than `from` and ending by `until`, expand
      to well-timed nodes. */
  lemma {:induction false} ExpandWellTimed(ts: seq<Tone>, from: real, until: real)
    requires forall k :: 0 <= k < |ts| ==>
      from <= ts[k].start && ts[k].duration > ATTACK && ts[k].start + ts[k].duration <= until
    ensures forall i :: 0 <= i < |Expand(ts)| ==> WellTimed(Expand(ts)[i], from, until)
  {
    forall i | 0 <= i < |Expand(ts)| ensures WellTimed(Expand(ts)[i], from, until) {
      ExpandAt(ts, i / 2);
    }
  }

  /** Every node of every rendering is well timed and finished within one loop period of its
      anchor. */
  lemma RenderFitsLoopPeriod(p: Profile, now: real)
    ensures forall i :: 0 <= i < |Render(p, now)| ==>
      WellTimed(Render(p, now)[i], now, now + LOOP_PERIOD_MS as real / 1000.0)
  {
    var until := now + LOOP_PERIOD_MS as real / 1000.0;
    if p != Siren {
      ExpandWellTimed(Voices(p, now), now, until);
    }
  }

  /** The times of a parameter's automation events, in order. */
  function EventTimes(ev: seq<ParamEvent>): (r: seq<real>)
    ensures |r| == |ev| && forall i :: 0 <= i < |ev| ==> r[i] == ev[i].Time()
  {
    seq(|ev|, i requires 0 <= i < |ev| => ev[i].Time())
  }

  /** Every time a node's schedule names: an oscillator's start, stop and frequency events, a gain's
      events. */
  function Times(u: Unit): seq<real>
  {
    match u
    case Oscillator(_, freq, start, stop) => [start, stop] + EventTimes(freq)
    case Gain(ev) => EventTimes(ev)
  }

  /** A well-timed node names no time outside its window. */
  lemma WellTimedTimes(u: Unit, from: real, until: real)
    requires WellTimed(u, from, until)
    ensures forall k :: 0 <= k < |Times(u)| ==> from <= Times(u)[k] <= until
  {
    if u.Oscillator? {
      var ts := Times(u);
      forall k | 0 <= k < |ts| ensures from <= ts[k] <= until {
        if k >= 2 {
          assert ts[k] == u.frequency[k - 2].Time();
        }
      }
    }
  }

  /** Renderings anchored at least one loop period apart, as the repeating timer fires them, do not
      overlap: every time the first schedules comes no later than every time the second schedules. */
  lemma RenderingsInOrder(p: Profile, t: real, q: Profile, t': real)
    requires t + LOOP_PERIOD_MS as real / 1000.0 <= t'
    ensures forall i, j, k, l ::
      0 <= i < |Render(p, t)| && 0 <= j < |Render(q, t')| &&
      0 <= k < |Times(Render(p, t)[i])| && 0 <= l < |Times(Render(q, t')[j])| ==>
        Times(Render(p, t)[i])[k] <= Times(Render(q, t')[j])[l]
  {
    var a, b := Render(p, t), Render(q, t');
    var mid := t + LOOP_PERIOD_MS as real / 1000.0;
    RenderFitsLoopPeriod(p, t);
    RenderFitsLoopPeriod(q, t');
    forall i | 0 <= i < |a| ensures forall k :: 0 <= k < |Times(a[i])| ==> Times(a[i])[k] <= mid {
      WellTimedTimes(a[i], t, mid);
    }
    forall j | 0 <= j < |b| ensures forall l :: 0 <= l < |Times(b[j])| ==> t' <= Times(b[j])[l] {
      WellTimedTimes(b[j], t', t' + LOOP_PERIOD_MS as real / 1000.0);
    }
  }

  /** What `sounds[type]` yields for a string: an own profile, or a member a plain object literal
      inherits from `Object.prototype`. */
  datatype SoundFn = ProfileFn(profile: Profile) | InheritedMember(key: string)

  /** The keys a plain object literal inherits from `Object.prototype`; each reads as a truthy value. */
  const INHERITED_KEYS: set<string> := {
    "constructor", "hasOwnProperty", "isPrototypeOf", "propertyIsEnumerable", "toLocaleString",
    "toString", "valueOf", "__defineGetter__", "__defineSetter__", "__lookupGetter__",
    "__lookupSetter__", "__proto__" }

  /** `sounds[type] || sounds.digital` as written: an inherited member is truthy, so it is chosen
      instead of the fallback; on every other string it agrees with Resolve. */
  function SoundFnAsWritten(id: string): (f: SoundFn)
    ensures f.InheritedMember? <==> id in INHERITED_KEYS
    ensures id !in INHERITED_KEYS ==> f == ProfileFn(Resolve(id))
  {
    if id == "digital" then ProfileFn(Digital)
    else if id == "siren" then ProfileFn(Siren)
    else if id == "chime" then ProfileFn(Chime)
    else if id == "pulse" then ProfileFn(Pulse)
    else if id == "retro" then ProfileFn(Retro)
    else if id in INHERITED_KEYS then InheritedMember(id)
    else ProfileFn(Digital)
  }

  /** The nodes calling the chosen function schedules: an inherited member is not a sound. */
  function RenderAsWritten(f: SoundFn, now: real): seq<Unit>
  {
    match f
    case ProfileFn(p) => Render(p, now)
    case InheritedMember(_) => []
  }

  /** As written, `playAlarmSound(false, "toString")` schedules nothing, where the fallback to
      digital would schedule digital's four nodes. */
  lemma InheritedKeySkipsFallback(now: real)
    ensures SoundFnAsWritten("toString") == InheritedMember("toString")
    ensures RenderAsWritten(SoundFnAsWritten("toString"), now) == []
    ensures Render(Resolve("toString"), now) == Render(Digital, now) && |Render(Digital, now)| == 4
  {
  }

  /** A string that names no profile renders exactly as digital. */
  lemma UnknownRendersAsDigital(id: string, now: real)
    requires forall q :: Name(q) != id
    ensures Render(Resolve(id), now) == Render(Digital, now)
  {
  }

  /** Each profile's name resolves to that profile. */
  lemma ResolveName(p: Profile)
    ensures Resolve(Name(p)) == p
  {
  }

  function Ids(nodes: seq<Node>): (r: seq<nat>)
    ensures |r| == |nodes| && forall i :: 0 <= i < |nodes| ==> r[i] == nodes[i].id
  {
    seq(|nodes|, i requires 0 <= i < |nodes| => nodes[i].id)
  }

  /** Nodes for `units` with consecutive ids from `first`. */
  function Tagged(units: seq<Unit>, first: nat): (r: seq<Node>)
    ensures |r| == |units| && forall i :: 0 <= i < |units| ==> r[i] == Node(first + i, units[i])
  {
    seq(|units|, i requires 0 <= i < |units| => Node(first + i, units[i]))
  }

  predicate Distinct(s: seq<nat>)
  {
    forall i, j :: 0 <= i < j < |s| ==> s[i] != s[j]
  }

  predicate Below(s: seq<nat>, n: nat)
  {
    forall i :: 0 <= i < |s| ==> s[i] < n
  }

  lemma TaggedAppend(a: seq<Unit>, b: seq<Unit>, first: nat)
    ensures Tagged(a + b, first) == Tagged(a, first) + Tagged(b, first + |a|)
  {
  }

  lemma ChimeTonesSnoc(now: real, i: nat)
    requires i < |CHIME_FREQS|
    ensures ChimeTones(now, i + 1) == ChimeTones(now, i) + [Tone(Sine, CHIME_FREQS[i], now + i as real * 0.1, 0.8, 0.05)]
  {
  }

  /** Tagging the nodes of one more tone appends its two nodes with the next two ids. */
  lemma TaggedSnoc(ts: seq<Tone>, t: Tone, first: nat)
    ensures Tagged(Expand(ts + [t]), first) == Tagged(Expand(ts), first) + Tagged(ToneUnits(t), first + |Expand(ts)|)
  {
    ExpandSnoc(ts, t);
    TaggedAppendEq(Expand(ts + [t]), Expand(ts), ToneUnits(t), first);
  }

  lemma TaggedAppendEq(all: seq<Unit>, a: seq<Unit>, b: seq<Unit>, first: nat)
    requires all == a + b
    ensures Tagged(all, first) == Tagged(a, first) + Tagged(b, first + |a|)
  {
    TaggedAppend(a, b, first);
  }

  lemma IdsAppend(a: seq<Node>, b: seq<Node>)
    ensures Ids(a + b) == Ids(a) + Ids(b)
  {
  }

  /** Appending tokens numbered from n to distinct ids below n keeps them distinct. */
  lemma FreshIds(s: seq<nat>, units: seq<Unit>, n: nat)
    requires Distinct(s) && Below(s, n)
    ensures Distinct(s + Ids(Tagged(units, n))) && Below(s + Ids(Tagged(units, n)), n + |units|)
  {
    var t := s + Ids(Tagged(units, n));
    forall i, j | 0 <= i < j < |t| ensures t[i] != t[j] {
      if j >= |s| {
        assert t[j] == n + (j - |s|);
        if i >= |s| {
          assert t[i] == n + (i - |s|);
        }
      }
    }
  }

  /** The engine: the module-level `audioCtx`, `alarmInterval` and `activeNodes`, with the tokens
      allocated so far (`nextId`) and the nodes `disconnect` was called on (`released`). */
  class AlarmEngine {
    var audioCtx: Option<AudioContext>
    var alarmInterval: Option<Repeat>
    var activeNodes: seq<Node>
    var nextId: nat
    var released: seq<nat>

    /** A repeating timer only once the context exists; every node ever created is either still
        active or was released, and each exactly once. (That a context, once created, is kept and
        never replaced is stated by every method's contract.) */
    ghost predicate Valid()
      reads this
    {
      && (alarmInterval.Some? ==> audioCtx.Some? && alarmInterval.value.periodMs == LOOP_PERIOD_MS)
      && |released| + |activeNodes| == nextId
      && Distinct(released + Ids(activeNodes))
      && Below(released + Ids(activeNodes), nextId)
    }

    /** No sound: no repeating timer and no active node. */
    predicate Silent()
      reads this
    {
      alarmInterval.None? && activeNodes == []
    }

    constructor ()
      ensures Valid() && Silent()
      ensures audioCtx.None? && nextId == 0 && released == []
    {
      audioCtx := None;
      alarmInterval := None;
      activeNodes := [];
      nextId := 0;
      released := [];
    }

    /** `cleanNodes`: disconnect every active node in list order (a failing disconnect is caught and
        ignored, so every node gets its call), then empty the list. */
    method CleanNodes()
      requires Valid()
      modifies this
      ensures Valid()
      ensures activeNodes == [] && released == old(released) + Ids(old(activeNodes))
      ensures audioCtx == old(audioCtx)
      ensures alarmInterval == old(alarmInterval) && nextId == old(nextId)
    {
      var i := 0;
      while i < |activeNodes|
        invariant 0 <= i <= |activeNodes|
        invariant activeNodes == old(activeNodes) && nextId == old(nextId)
        invariant audioCtx == old(audioCtx)
        invariant alarmInterval == old(alarmInterval)
        invariant released == old(released) + Ids(activeNodes[..i])
      {
        assert Ids(activeNodes[..i + 1]) == Ids(activeNodes[..i]) + [activeNodes[i].id];
        released := released + [activeNodes[i].id];
        i := i + 1;
      }
      assert activeNodes[..i] == activeNodes;
      ghost var all := old(released) + Ids(old(activeNodes));
      activeNodes := [];
      assert released + Ids(activeNodes) == all;
    }

    /** `stopAlarmSound`: cancel the repeating timer, if any, and clean the nodes. */
    method Stop()
      requires Valid()
      modifies this
      ensures Valid() && Silent()
      ensures released == old(released) + Ids(old(activeNodes))
      ensures audioCtx == old(audioCtx) && nextId == old(nextId)
    {
      if alarmInterval.Some? {
        alarmInterval := None;
      }
      CleanNodes();
    }

    /** Allocates one token per unit and pushes the new nodes onto the active list. */
    method Push(units: seq<Unit>)
      requires Valid()
      modifies this
      ensures Valid()
      ensures activeNodes == old(activeNodes) + Tagged(units, old(nextId))
      ensures nextId == old(nextId) + |units|
      ensures audioCtx == old(audioCtx)
      ensures alarmInterval == old(alarmInterval) && released == old(released)
    {
      var created := Tagged(units, nextId);
      FreshIds(released + Ids(activeNodes), units, nextId);
      IdsAppend(activeNodes, created);
      assert released + Ids(activeNodes + created) == released + Ids(activeNodes) + Ids(created);
      activeNodes := activeNodes + created;
      nextId := nextId + |units|;
    }

    /** `createOscillator`: nothing without a context; otherwise the oscillator and its gain are
        scheduled and pushed, after the earlier nodes. */
    method CreateOscillator(t: Tone)
      requires Valid()
      modifies this
      ensures Valid()
      ensures old(audioCtx).None? ==> activeNodes == old(activeNodes) && nextId == old(nextId)
      ensures old(audioCtx).Some? ==>
        activeNodes == old(activeNodes) + Tagged(ToneUnits(t), old(nextId)) && nextId == old(nextId) + 2
      ensures audioCtx == old(audioCtx)
      ensures alarmInterval == old(alarmInterval) && released == old(released)
    {
      if audioCtx.None? {
        return;
      }
      Push(ToneUnits(t));
    }

    /** Two `createOscillator` calls in a row push both tones' nodes, in call order. */
    method CreateTwo(t1: Tone, t2: Tone)
      requires Valid() && audioCtx.Some?
      modifies this
      ensures Valid()
      ensures activeNodes == old(activeNodes) + Tagged(Expand([t1, t2]), old(nextId))
      ensures nextId == old(nextId) + 4
      ensures audioCtx == old(audioCtx)
      ensures alarmInterval == old(alarmInterval) && released == old(released)
    {
      CreateOscillator(t1);
      CreateOscillator(t2);
      ExpandSnoc([t1], t2);
      ExpandSnoc([], t1);
      assert [t1] + [t2] == [t1, t2] && [] + [t1] == [t1];
      TaggedAppend(ToneUnits(t1), ToneUnits(t2), old(nextId));
    }

    /** The chime: `createOscillator` once per chime frequency, each 0.1 s after the previous. */
    method RenderChime(now: real)
      requires Valid() && audioCtx.Some?
      modifies this
      ensures Valid()
      ensures activeNodes == old(activeNodes) + Tagged(Expand(ChimeTones(now, |CHIME_FREQS|)), old(nextId))
      ensures nextId == old(nextId) + 2 * |CHIME_FREQS|
      ensures audioCtx == old(audioCtx)
      ensures alarmInterval == old(alarmInterval) && released == old(released)
    {
      for i := 0 to |CHIME_FREQS|
        invariant Valid() && audioCtx == old(audioCtx)
        invariant alarmInterval == old(alarmInterval) && released == old(released)
        invariant activeNodes == old(activeNodes) + Tagged(Expand(ChimeTones(now, i)), old(nextId))
        invariant nextId == old(nextId) + 2 * i
      {
        ChimeStep(now, i, old(activeNodes), old(nextId));
      }
    }

    /** One pass of the chime's `forEach`: the i-th chime tone's two nodes follow the first i tones'. */
    method ChimeStep(now: real, i: nat, ghost base: seq<Node>, ghost first: nat)
      requires Valid() && audioCtx.Some? && i < |CHIME_FREQS|
      requires activeNodes == base + Tagged(Expand(ChimeTones(now, i)), first) && nextId == first + 2 * i
      modifies this
      ensures Valid()
      ensures activeNodes == base + Tagged(Expand(ChimeTones(now, i + 1)), first) && nextId == first + 2 * (i + 1)
      ensures audioCtx == old(audioCtx)
      ensures alarmInterval == old(alarmInterval) && released == old(released)
    {
      var t := Tone(Sine, CHIME_FREQS[i], now + i as real * 0.1, 0.8, 0.05);
      CreateOscillator(t);
      ChimeTonesSnoc(now, i);
      TaggedSnoc(ChimeTones(now, i), t, first);
    }

    /** The retro profile: three `createOscillator` calls, 0.1 s apart. */
    method RenderRetro(t1: Tone, t2: Tone, t3: Tone)
      requires Valid() && audioCtx.Some?
      modifies this
      ensures Valid()
      ensures activeNodes == old(activeNodes) + Tagged(Expand([t1, t2, t3]), old(nextId))
      ensures nextId == old(nextId) + 6
      ensures audioCtx == old(audioCtx)
      ensures alarmInterval == old(alarmInterval) && released == old(released)
    {
      CreateTwo(t1, t2);
      CreateOscillator(t3);
      ExpandSnoc([t1, t2], t3);
      assert [t1, t2] + [t3] == [t1, t2, t3];
      TaggedAppend(Expand([t1, t2]), ToneUnits(t3), old(nextId));
    }

    /** Calls one profile's function from the `sounds` table with anchor time `now`: it pushes that
        rendering's nodes after the earlier ones. The siren uses the context without checking it. */
    method RenderProfile(p: Profile, now: real)
      requires Valid() && audioCtx.Some?
      modifies this
      ensures Valid()
      ensures activeNodes == old(activeNodes) + Tagged(Render(p, now), old(nextId))
      ensures nextId == old(nextId) + |Render(p, now)|
      ensures audioCtx == old(audioCtx)
      ensures alarmInterval == old(alarmInterval) && released == old(released)
    {
      match p
      case Digital =>
        CreateTwo(Tone(Square, 1000.0, now, 0.2, 0.1), Tone(Square, 1000.0, now + 0.3, 0.2, 0.1));
      case Siren =>
        Push(SirenUnits(now));
      case Chime =>
        RenderChime(now);
      case Pulse =>
        CreateTwo(Tone(Sine, 200.0, now, 0.4, 0.2), Tone(Sine, 150.0, now + 0.5, 0.4, 0.2));
      case Retro =>
        RenderRetro(Tone(Triangle, 600.0, now, 0.1, 0.1), Tone(Triangle, 800.0, now + 0.1, 0.1, 0.1),
                    Tone(Triangle, 1000.0, now + 0.2, 0.1, 0.1));
    }

    /** `playAlarmSound(loop, type)` with the context's current time `now`: create the context if
        there is none, stop whatever plays, render the resolved profile once and, when looping, start
        the repeating timer. Right after the call the active nodes are exactly that one rendering's. */
    method Play(loop: bool, soundId: string, now: real)
      requires Valid()
      modifies this
      ensures Valid() && audioCtx.Some?
      ensures old(audioCtx).Some? ==> audioCtx == old(audioCtx)
      ensures old(audioCtx).None? ==> fresh(audioCtx.value)
      ensures released == old(released) + Ids(old(activeNodes))
      ensures activeNodes == Tagged(Render(Resolve(soundId), now), old(nextId))
      ensures nextId == old(nextId) + |Render(Resolve(soundId), now)|
      ensures alarmInterval == if loop then Some(Repeat(Resolve(soundId), LOOP_PERIOD_MS)) else None
    {
      if audioCtx.None? {
        var context := new AudioContext();
        audioCtx := Some(context);
      }
      Stop();
      var profile := Resolve(soundId);
      RenderProfile(profile, now);
      if loop {
        alarmInterval := Some(Repeat(profile, LOOP_PERIOD_MS));
      }
    }

    /** One firing of the repeating timer at context time `now`: it renders the captured profile
        again and appends its nodes, keeping every earlier one. A cancelled timer never fires. */
    method LoopTick(now: real)
      requires Valid()
      modifies this
      ensures Valid()
      ensures old(alarmInterval).None? ==> activeNodes == old(activeNodes) && nextId == old(nextId)
      ensures old(alarmInterval).Some? ==>
        activeNodes == old(activeNodes) + Tagged(Render(old(alarmInterval).value.profile, now), old(nextId))
      ensures audioCtx == old(audioCtx)
      ensures alarmInterval == old(alarmInterval) && released == old(released)
    {
      if alarmInterval.Some? && audioCtx.Some? {
        RenderProfile(alarmInterval.value.profile, now);
      }
    }
  }

  /** A looped chime followed by three timer firings holds four renderings' nodes; stop empties the
      list and a firing after it adds nothing. Returns the node counts after each step. */
  method ChimeLoopScenario(now: real) returns (afterPlay: nat, afterTicks: nat, afterStop: nat, afterLateTick: nat)
    ensures afterPlay == 8 && afterTicks == 32 && afterStop == 0 && afterLateTick == 0
  {
    var e := new AlarmEngine();
    e.Play(true, "chime", now);
    afterPlay := |e.activeNodes|;
    e.LoopTick(now + 1.2);
    e.LoopTick(now + 2.4);
    e.LoopTick(now + 3.6);
    afterTicks := |e.activeNodes|;
    e.Stop();
    afterStop := |e.activeNodes|;
    e.LoopTick(now + 4.8);
    afterLateTick := |e.activeNodes|;
  }

  /** Stopping twice: the second stop changes nothing. */
  method StopTwice(e: AlarmEngine)
    requires e.Valid()
    modifies e
    ensures e.Valid() && e.Silent()
    ensures e.released == old(e.released) + Ids(old(e.activeNodes))
  {
    e.Stop();
    ghost var once := e.released;
    e.Stop();
    assert e.released == once;
  }
}

=== FILE: focus.dfy ===
/** The focus (Pomodoro) screen of `src/features/Focus.tsx`: three session kinds with fixed lengths,
    a countdown, and a task list with an input box. */
module Focus {
  import Text
  import Audio

  datatype Session = Work | ShortBreak | LongBreak

  /** The label and duration of a `configs` entry (colours and icons are left out). */
  datatype Config = Config(title: string, duration: nat)

  datatype Task = Task(id: string, text: string, completed: bool)

  /** The `configs` table. */
  function Configs(s: Session): Config
  {
    match s
    case Work => Config("Focus Time", 25 * 60)
    case ShortBreak => Config("Short Break", 5 * 60)
    case LongBreak => Config("Long Break", 15 * 60)
  }

  /** Work lasts 1500 s, a short break 300 s and a long break 900 s. */
  lemma SessionDurations()
    ensures Configs(Work).duration == 1500
    ensures Configs(ShortBreak).duration == 300
    ensures Configs(LongBreak).duration == 900
  {
  }

  /** An `mm:ss` display of `total` seconds: the minutes' digits, a colon and two digits of
      seconds, which read back as the total with the seconds below 60; the minutes take exactly two
      digits below 100 minutes and have no leading zero when longer. */
  ghost predicate ShowsMinSec(r: string, total: nat)
  {
    exists mm: string, ss: string :: r == mm + ":" + ss
      && |mm| >= 2 && |ss| == 2 && Text.IsDigits(mm) && Text.IsDigits(ss)
      && Text.ValueOf(ss) < 60 && Text.ValueOf(mm) * 60 + Text.ValueOf(ss) == total
      && (total < 6000 ==> |mm| == 2) && (|mm| == 2 || mm[0] != '0')
  }

  /** `formatTime(totalSeconds)`: the zero-padded minutes, a colon and the two-digit seconds. */
  function FormatTime(total: nat): (r: string)
    ensures ShowsMinSec(r, total)
  {
    var mm, ss := Text.TwoDigits(total / 60), Text.TwoDigits(total % 60);
    MinSecShown(mm, ss, total);
    mm + ":" + ss
  }

  /** The padded minutes and seconds of `total` are a witness of ShowsMinSec. */
  lemma MinSecShown(mm: string, ss: string, total: nat)
    requires mm == Text.TwoDigits(total / 60) && ss == Text.TwoDigits(total % 60)
    ensures ShowsMinSec(mm + ":" + ss, total)
  {
    assert total < 6000 ==> total / 60 < 100;
    MinSecWitness(mm, ss, total);
  }

  lemma MinSecWitness(mm: string, ss: string, total: nat)
    requires |mm| >= 2 && |ss| == 2 && Text.IsDigits(mm) && Text.IsDigits(ss)
    requires Text.ValueOf(ss) < 60 && Text.ValueOf(mm) * 60 + Text.ValueOf(ss) == total
    requires (total < 6000 ==> |mm| == 2) && (|mm| == 2 || mm[0] != '0')
    ensures ShowsMinSec(mm + ":" + ss, total)
  {
  }

  /** `toggleTask`'s `map`: tasks with that id have `completed` flipped; everything else, the order
      and the length stay as they were. */
  function ToggleTasks(tasks: seq<Task>, id: string): (r: seq<Task>)
    ensures |r| == |tasks|
    ensures forall i :: 0 <= i < |r| ==> r[i].id == tasks[i].id && r[i].text == tasks[i].text
    ensures forall i :: 0 <= i < |r| ==>
      r[i].completed == (if tasks[i].id == id then !tasks[i].completed else tasks[i].completed)
  {
    seq(|tasks|, i requires 0 <= i < |tasks| =>
      if tasks[i].id == id then tasks[i].(completed := !tasks[i].completed) else tasks[i])
  }

  /** Toggling the same id twice restores the list. */
  lemma ToggleTasksTwice(tasks: seq<Task>, id: string)
    ensures ToggleTasks(ToggleTasks(tasks, id), id) == tasks
  {
    var r := ToggleTasks(ToggleTasks(tasks, id), id);
    assert forall i :: 0 <= i < |tasks| ==> r[i] == tasks[i];
  }

  /** The component's state, with the module-level sound engine. */
  class Focus {
    var session: Session
    var timeLeft: nat
    var isRunning: bool
    var tasks: seq<Task>
    var newTask: string
    const audio: Audio.AlarmEngine

    /** The countdown never exceeds the current session's length. */
    ghost predicate Valid()
      reads this, audio
    {
      audio.Valid() && timeLeft <= Configs(session).duration
    }

    constructor (audio: Audio.AlarmEngine)
      requires audio.Valid()
      ensures Valid() && this.audio == audio
      ensures session == Work && timeLeft == 25 * 60 && !isRunning && tasks == [] && newTask == ""
    {
      this.audio := audio;
      session := Work;
      timeLeft := 25 * 60;
      isRunning := false;
      tasks := [];
      newTask := "";
    }

    /** A session button: stop, switch, and load that session's length. */
    method SwitchSession(kind: Session)
      requires Valid()
      modifies this
      ensures Valid()
      ensures !isRunning && session == kind && timeLeft == Configs(kind).duration
      ensures tasks == old(tasks) && newTask == old(newTask)
    {
      isRunning := false;
      session := kind;
      timeLeft := Configs(kind).duration;
    }

    /** The reset button: reload the current session's length; running is left as it was. */
    method ResetTime()
      requires Valid()
      modifies this
      ensures Valid()
      ensures timeLeft == Configs(session).duration
      ensures session == old(session) && isRunning == old(isRunning) && tasks == old(tasks)
      ensures newTask == old(newTask)
    {
      timeLeft := Configs(session).duration;
    }

    /** The start/pause button. */
    method ToggleRunning()
      requires Valid()
      modifies this
      ensures Valid()
      ensures isRunning == !old(isRunning) && timeLeft == old(timeLeft) && session == old(session)
      ensures tasks == old(tasks) && newTask == old(newTask)
    {
      isRunning := !isRunning;
    }

    /** One firing of the one-second interval, armed only while running with time left. */
    method Tick()
      requires Valid()
      modifies this
      ensures Valid()
      ensures timeLeft == if old(isRunning) && old(timeLeft) > 0 then old(timeLeft) - 1 else old(timeLeft)
      ensures isRunning == old(isRunning) && session == old(session) && tasks == old(tasks)
      ensures newTask == old(newTask)
    {
      if isRunning && timeLeft > 0 {
        timeLeft := timeLeft - 1;
      }
    }

    /** The countdown effect: on reaching zero while running it stops and, if sound is on, plays
        the selected sound once (not looped). */
    method CountdownEffect(soundEnabled: bool, selectedSound: string, now: real)
      requires Valid()
      modifies this, audio
      ensures Valid()
      ensures timeLeft == old(timeLeft) && session == old(session) && tasks == old(tasks)
      ensures newTask == old(newTask)
      ensures old(timeLeft) == 0 && old(isRunning) ==> !isRunning
      ensures !(old(timeLeft) == 0 && old(isRunning)) ==> isRunning == old(isRunning)
      ensures old(timeLeft) == 0 && old(isRunning) && soundEnabled ==>
        audio.alarmInterval.None? &&
        audio.activeNodes == Audio.Tagged(Audio.Render(Audio.Resolve(selectedSound), now), old(audio.nextId)) &&
        audio.released == old(audio.released) + Audio.Ids(old(audio.activeNodes))
      ensures !(old(timeLeft) == 0 && old(isRunning) && soundEnabled) ==> unchanged(audio)
    {
      if isRunning && timeLeft > 0 {
        // the one-second interval is armed; its firings are Tick
      } else if timeLeft == 0 && isRunning {
        isRunning := false;
        if soundEnabled {
          audio.Play(false, selectedSound, now);
        }
      }
    }

    /** The task input's change handler. */
    method SetNewTask(text: string)
      requires Valid()
      modifies this
      ensures Valid()
      ensures newTask == text && tasks == old(tasks) && timeLeft == old(timeLeft) && session == old(session)
      ensures isRunning == old(isRunning)
    {
      newTask := text;
    }

    /** The task form's submit: blank input changes nothing; otherwise a new, uncompleted task with
        the input's text (untrimmed) and the given id goes first, and the input is cleared. */
    method AddTask(id: string)
      requires Valid()
      modifies this
      ensures Valid()
      ensures Text.IsBlank(old(newTask)) ==> tasks == old(tasks) && newTask == old(newTask)
      ensures !Text.IsBlank(old(newTask)) ==>
        tasks == [Task(id, old(newTask), false)] + old(tasks) && newTask == ""
      ensures timeLeft == old(timeLeft) && session == old(session) && isRunning == old(isRunning)
    {
      if Text.Trim(newTask) == "" {
        return;
      }
      tasks := [Task(id, newTask, false)] + tasks;
      newTask := "";
    }

    /** A click on a task. */
    method ToggleTask(id: string)
      requires Valid()
      modifies this
      ensures Valid()
      ensures tasks == ToggleTasks(old(tasks), id)
      ensures newTask == old(newTask) && timeLeft == old(timeLeft) && session == old(session)
      ensures isRunning == old(isRunning)
    {
      tasks := ToggleTasks(tasks, id);
    }
  }
}

=== FILE: stopwatch.dfy ===
/** The stopwatch screen of `src/features/Stopwatch.tsx`: elapsed time in milliseconds counted up by
    a 10 ms interval, a running flag and the lap list (newest first), with the display arithmetic. */
module Stopwatch {
  import Text

  /** The three numbers `formatTime` shows. */
  datatype Reading = Reading(minutes: nat, seconds: nat, centiseconds: nat)

  /** The three zero-padded fields `formatTime` returns. */
  datatype Display = Display(m: string, s: string, ms: string)

  const TICK_MS: nat := 10

  /** The numeric part of `formatTime`: whole minutes, the seconds within the minute and the
      hundredths within the second; together they give back the time up to its last 10 ms. */
  function Split(ms: nat): (r: Reading)
    ensures r.seconds < 60 && r.centiseconds < 100
    ensures r.minutes * 60000 + r.seconds * 1000 + r.centiseconds * 10 == ms - ms % 10
  {
    var r := Reading(ms / 60000, (ms % 60000) / 1000, (ms % 1000) / 10);
    SplitArith(ms);
    r
  }

  lemma SplitArith(ms: nat)
    ensures (ms % 60000) / 1000 < 60 && (ms % 1000) / 10 < 100
    ensures (ms / 60000) * 60000 + ((ms % 60000) / 1000) * 1000 + ((ms % 1000) / 10) * 10 == ms - ms % 10
  {
    var q, r := ms / 60000, ms % 60000;
    var b, c := r / 1000, r % 1000;
    var d, e := c / 10, c % 10;
    assert ms == q * 60000 + r;
    assert r == b * 1000 + c;
    assert c == d * 10 + e;
    assert ms == (q * 60 + b) * 1000 + c;
    assert ms % 1000 == c;
    assert ms == ((q * 60 + b) * 100 + d) * 10 + e;
    assert ms % 10 == e;
  }

  /** Split is the only decomposition with seconds below 60 and hundredths below 100. */
  lemma SplitUnique(ms: nat, r: Reading)
    requires r.seconds < 60 && r.centiseconds < 100
    requires r.minutes * 60000 + r.seconds * 1000 + r.centiseconds * 10 == ms - ms % 10
    ensures r == Split(ms)
  {
    var t := Split(ms);
    var x1 := r.minutes * 60 + r.seconds;
    var y1 := t.minutes * 60 + t.seconds;
    var x := x1 * 100 + r.centiseconds;
    var y := y1 * 100 + t.centiseconds;
    assert x * 10 == ms - ms % 10 == y * 10;
    assert x == y;
    assert x1 == x / 100 && r.centiseconds == x % 100;
    assert y1 == y / 100 && t.centiseconds == y % 100;
    assert r.minutes == x1 / 60 && r.seconds == x1 % 60;
    assert t.minutes == y1 / 60 && t.seconds == y1 % 60;
  }

  /** `formatTime(ms)`: each field all digits, at least two, seconds and hundredths exactly two, a
      longer minutes field without a leading zero, and the digits read back as the time up to its
      last 10 ms. */
  function FormatTime(ms: nat): (d: Display)
    ensures Text.IsDigits(d.m) && Text.IsDigits(d.s) && Text.IsDigits(d.ms)
    ensures |d.m| >= 2 && |d.s| == 2 && |d.ms| == 2
    ensures |d.m| == 2 || d.m[0] != '0'
    ensures ms < 6000000 ==> |d.m| == 2
    ensures Text.ValueOf(d.s) < 60 && Text.ValueOf(d.ms) < 100
    ensures Text.ValueOf(d.m) * 60000 + Text.ValueOf(d.s) * 1000 + Text.ValueOf(d.ms) * 10 == ms - ms % 10
  {
    var r := Split(ms);
    Display(Text.TwoDigits(r.minutes), Text.TwoDigits(r.seconds), Text.TwoDigits(r.centiseconds))
  }

  /** The lap list is newest first, so its times never increase along the list. */
  predicate Descending(laps: seq<nat>)
  {
    forall i, j :: 0 <= i < j < |laps| ==> laps[j] <= laps[i]
  }

  /** The split shown beside each lap: its time minus the next (older) lap's, and the oldest lap's
      own time. */
  function LapDiffs(laps: seq<nat>): (r: seq<int>)
    ensures |r| == |laps|
  {
    seq(|laps|, i requires 0 <= i < |laps| =>
      if i < |laps| - 1 then laps[i] as int - laps[i + 1] as int else laps[i] as int)
  }

  function Sum(s: seq<int>): int
  {
    if s == [] then 0 else s[0] + Sum(s[1..])
  }

  /** The splits telescope: the splits from lap i to the oldest add up to lap i's time. */
  lemma {:induction false} LapDiffsTelescope(laps: seq<nat>, i: nat)
    requires i < |laps|
    ensures Sum(LapDiffs(laps)[i..]) == laps[i]
    decreases |laps| - i
  {
    var d := LapDiffs(laps);
    if i < |laps| - 1 {
      assert d[i..] == [d[i]] + d[i + 1..];
      LapDiffsTelescope(laps, i + 1);
    } else {
      assert d[i..] == [d[i]];
      assert d[i..][1..] == [];
    }
  }

  /** On a newest-first list every split is non-negative. */
  lemma LapDiffsNonNegative(laps: seq<nat>)
    requires Descending(laps)
    ensures forall i :: 0 <= i < |laps| ==> LapDiffs(laps)[i] >= 0
  {
  }

  /** The number shown beside each lap: `laps.length - index`. */
  function LapNumbers(laps: seq<nat>): (r: seq<nat>)
    ensures |r| == |laps|
  {
    seq(|laps|, i requires 0 <= i < |laps| => |laps| - i)
  }

  /** Lap numbers run from the lap count down to 1, and a new lap leaves the earlier laps' numbers
      as they were. */
  lemma LapNumbering(laps: seq<nat>, t: nat)
    ensures forall i :: 0 <= i < |laps| ==> 1 <= LapNumbers(laps)[i] <= |laps|
    ensures forall i, j :: 0 <= i < j < |laps| ==> LapNumbers(laps)[j] < LapNumbers(laps)[i]
    ensures LapNumbers([t] + laps)[0] == |laps| + 1 && LapNumbers([t] + laps)[1..] == LapNumbers(laps)
  {
  }

  /** The component's state; `intervalActive` is whether `timerRef` names a live 10 ms interval. */
  class Stopwatch {
    var time: nat
    var isRunning: bool
    var laps: seq<nat>
    var intervalActive: bool

    /** The interval runs exactly while the stopwatch runs; the laps are newest first and none is
        later than the current time. */
    ghost predicate Valid()
      reads this
    {
      intervalActive == isRunning && Descending(laps) && forall i :: 0 <= i < |laps| ==> laps[i] <= time
    }

    constructor ()
      ensures Valid() && time == 0 && !isRunning && laps == []
    {
      time := 0;
      isRunning := false;
      laps := [];
      intervalActive := false;
    }

    /** The start/pause button: pausing clears the interval, starting sets a new one. */
    method StartStopwatch()
      requires Valid()
      modifies this
      ensures Valid()
      ensures isRunning == !old(isRunning) && time == old(time) && laps == old(laps)
    {
      if isRunning {
        intervalActive := false;
        isRunning := false;
      } else {
        isRunning := true;
        intervalActive := true;
      }
    }

    /** The reset button. */
    method ResetStopwatch()
      requires Valid()
      modifies this
      ensures Valid()
      ensures time == 0 && laps == [] && !isRunning
    {
      intervalActive := false;
      isRunning := false;
      time := 0;
      laps := [];
    }

    /** The lap button: the current time goes in front of the earlier laps. */
    method AddLap()
      requires Valid()
      modifies this
      ensures Valid()
      ensures laps == [old(time)] + old(laps)
      ensures time == old(time) && isRunning == old(isRunning)
    {
      laps := [time] + laps;
    }

    /** One firing of the 10 ms interval; a cleared interval does not fire. */
    method Tick()
      requires Valid()
      modifies this
      ensures Valid()
      ensures time == old(time) + (if old(isRunning) then TICK_MS else 0)
      ensures laps == old(laps) && isRunning == old(isRunning)
    {
      if intervalActive {
        time := time + TICK_MS;
      }
    }
  }
}

=== FILE: text.dfy ===
/** Decimal rendering, zero padding and whitespace trimming, as the screens use them:
    `Number.prototype.toString()`, `String.prototype.padStart(2, '0')` and `String.prototype.trim()`. */
module Text {

  /** The character of one decimal digit. */
  function Digit(d: nat): (c: char)
    requires d < 10
    ensures '0' <= c <= '9'
  {
    "0123456789"[d]
  }

  /** The value of one decimal digit character; anything else reads as 0. */
  function DigitValue(c: char): nat
  {
    if '0' <= c <= '9' then c as int - '0' as int else 0
  }

  predicate IsDigits(s: string)
  {
    forall i :: 0 <= i < |s| ==> '0' <= s[i] <= '9'
  }

  /** The number a string of decimal digits denotes, most significant digit first. */
  function ValueOf(s: string): nat
  {
    if s == [] then 0 else ValueOf(s[..|s| - 1]) * 10 + DigitValue(s[|s| - 1])
  }

  /** `n.toString()` for a non-negative integer: its decimal digits without leading zeros. */
  function DecimalString(n: nat): (s: string)
    ensures |s| >= 1 && IsDigits(s)
    ensures n >= 10 ==> s[0] != '0'
    decreases n
  {
    if n < 10 then [Digit(n)] else DecimalString(n / 10) + [Digit(n % 10)]
  }

  /** Reading the decimal string back gives the number. */
  lemma {:induction false} DecimalStringValue(n: nat)
    ensures ValueOf(DecimalString(n)) == n
    decreases n
  {
    if n >= 10 {
      var s := DecimalString(n);
      assert s[..|s| - 1] == DecimalString(n / 10);
      DecimalStringValue(n / 10);
    }
  }

  /** A number has one digit below 10, at most two below 100 and at least two from 10 on. */
  lemma {:induction false} DecimalStringLength(n: nat)
    ensures n < 10 ==> |DecimalString(n)| == 1
    ensures n < 100 ==> |DecimalString(n)| <= 2
    ensures n >= 10 ==> |DecimalString(n)| >= 2
  {
    if n >= 10 {
      DecimalStringLength(n / 10);
    }
  }

  /** `s.padStart(width, fill)`: `fill` is prepended until the string is `width` long. */
  function PadStart(s: string, width: nat, fill: char): (r: string)
    ensures |r| == if |s| >= width then |s| else width
    ensures r[|r| - |s|..] == s
    ensures forall i :: 0 <= i < |r| - |s| ==> r[i] == fill
  {
    if |s| >= width then s else seq(width - |s|, _ => fill) + s
  }

  /** Leading zeros do not change the value of a digit string. */
  lemma {:induction false} LeadingZerosValue(z: string, s: string)
    requires forall i :: 0 <= i < |z| ==> z[i] == '0'
    ensures ValueOf(z + s) == ValueOf(s)
    decreases |s|, |z|
  {
    if s == [] {
      if z != [] {
        assert z + s == z;
        assert z[..|z| - 1] + [] == z[..|z| - 1];
        LeadingZerosValue(z[..|z| - 1], []);
      }
    } else {
      assert (z + s)[..|z + s| - 1] == z + s[..|s| - 1];
      LeadingZerosValue(z, s[..|s| - 1]);
    }
  }

  /** Zero padding keeps the value of a digit string. */
  lemma PadStartValue(d: string, width: nat)
    ensures ValueOf(PadStart(d, width, '0')) == ValueOf(d)
  {
    var r := PadStart(d, width, '0');
    var z := r[..|r| - |d|];
    assert r == z + d;
    LeadingZerosValue(z, d);
  }

  /** A number as the screens show each field: at least two digits, zero padded, and a longer field
      has no leading zero. */
  function TwoDigits(n: nat): (r: string)
    ensures |r| >= 2 && IsDigits(r)
    ensures n < 100 ==> |r| == 2
    ensures |r| == 2 || r[0] != '0'
    ensures ValueOf(r) == n
  {
    DecimalStringLength(n);
    DecimalStringValue(n);
    PadStartValue(DecimalString(n), 2);
    PadStart(DecimalString(n), 2, '0')
  }

  /** The characters `String.prototype.trim` removes: ECMAScript WhiteSpace and LineTerminator. */
  predicate IsWhiteSpace(c: char)
  {
    || c == '\t' || c == '\n' || c == '\U{000B}' || c == '\U{000C}' || c == '\r' || c == ' '
    || c == '\U{00A0}' || c == '\U{1680}' || ('\U{2000}' <= c <= '\U{200A}')
    || c == '\U{2028}' || c == '\U{2029}' || c == '\U{202F}' || c == '\U{205F}'
    || c == '\U{3000}' || c == '\U{FEFF}'
  }

  predicate IsBlank(s: string)
  {
    forall i :: 0 <= i < |s| ==> IsWhiteSpace(s[i])
  }

  /** Drops leading white space: the result is the suffix that starts at the first other character. */
  function TrimStart(s: string): (r: string)
    ensures |r| <= |s| && r == s[|s| - |r|..]
    ensures IsBlank(s[..|s| - |r|])
    ensures r == [] || !IsWhiteSpace(r[0])
  {
    if s != [] && IsWhiteSpace(s[0]) then TrimStart(s[1..]) else s
  }

  /** Drops trailing white space: the result is the prefix that ends at the last other character. */
  function TrimEnd(s: string): (r: string)
    ensures |r| <= |s| && r == s[..|r|]
    ensures IsBlank(s[|r|..])
    ensures r == [] || !IsWhiteSpace(r[|r| - 1])
  {
    if s != [] && IsWhiteSpace(s[|s| - 1]) then TrimEnd(s[..|s| - 1]) else s
  }

  /** `s.trim()`; it is empty, so falsy, exactly when every character of `s` is white space. */
  function Trim(s: string): (r: string)
    ensures r == [] <==> IsBlank(s)
  {
    TrimEnd(TrimStart(s))
  }
}

=== FILE: timer.dfy ===
/** The countdown timer of `src/features/Timer.tsx`: the preset length and the seconds left, the
    running and ringing flags, and the shared alarm-sound engine it stops and starts. */
module Timer {
  import Text
  import Audio

  /** Hours, minutes and seconds. */
  datatype Hms = Hms(h: nat, m: nat, s: nat)

  /** The three zero-padded fields `formatTime` returns. */
  datatype Display = Display(h: string, m: string, s: string)

  /** The minutes of the quick-preset buttons. */
  const PRESET_MINUTES: seq<nat> := [1, 5, 10, 15, 30, 60]

  /** The numeric part of `formatTime`: minutes and seconds below 60 that, with the hours, add back
      up to the total. */
  function Split(total: nat): (r: Hms)
    ensures r.m < 60 && r.s < 60
    ensures r.h * 3600 + r.m * 60 + r.s == total
  {
    Hms(total / 3600, (total % 3600) / 60, total % 60)
  }

  /** The total seconds `handleCustomSubmit` computes from the form's hours, minutes and seconds. */
  function CustomTotal(h: nat, m: nat, s: nat): nat
  {
    h * 3600 + m * 60 + s
  }

  /** A custom duration whose minutes and seconds are below 60 (the form allows at most 59) splits
      back into the same hours, minutes and seconds. */
  lemma CustomTotalRoundTrip(h: nat, m: nat, s: nat)
    requires m < 60 && s < 60
    ensures Split(CustomTotal(h, m, s)) == Hms(h, m, s)
  {
    var t := CustomTotal(h, m, s);
    var x := h * 60 + m;
    assert t == x * 60 + s;
    assert t / 60 == x && t % 60 == s;
    assert t == h * 3600 + (m * 60 + s) && m * 60 + s < 3600;
    assert t / 3600 == h && t % 3600 == m * 60 + s;
  }

  /** Each quick preset is a whole number of minutes, at most an hour: it splits into zero seconds and
      into hours and minutes that add back up to the preset's minutes. */
  lemma PresetSplits(k: nat)
    requires k < |PRESET_MINUTES|
    ensures Split(PRESET_MINUTES[k] * 60).s == 0 && Split(PRESET_MINUTES[k] * 60).h <= 1
    ensures Split(PRESET_MINUTES[k] * 60).h * 60 + Split(PRESET_MINUTES[k] * 60).m == PRESET_MINUTES[k]
  {
    var mins := PRESET_MINUTES[k];
    var r := Split(mins * 60);
    assert (r.h * 60 + r.m) * 60 + r.s == mins * 60;
  }

  /** `formatTime(totalSeconds)`: each field all digits, minutes and seconds exactly two, hours at
      least two and without a leading zero when longer, and the digits read back as the total. */
  function FormatTime(total: nat): (d: Display)
    ensures Text.IsDigits(d.h) && Text.IsDigits(d.m) && Text.IsDigits(d.s)
    ensures |d.h| >= 2 && |d.m| == 2 && |d.s| == 2
    ensures |d.h| == 2 || d.h[0] != '0'
    ensures total < 360000 ==> |d.h| == 2
    ensures Text.ValueOf(d.m) < 60 && Text.ValueOf(d.s) < 60
    ensures Text.ValueOf(d.h) * 3600 + Text.ValueOf(d.m) * 60 + Text.ValueOf(d.s) == total
  {
    var r := Split(total);
    var h, m, s := Text.TwoDigits(r.h), Text.TwoDigits(r.m), Text.TwoDigits(r.s);
    assert Text.ValueOf(h) == r.h && Text.ValueOf(m) == r.m && Text.ValueOf(s) == r.s;
    assert total < 360000 ==> r.h < 100;
    Display(h, m, s)
  }

  /** The component's state, with the module-level sound engine it shares with the other screens. */
  class Timer {
    var initialTime: nat
    var timeLeft: nat
    var isRunning: bool
    var isRinging: bool
    const audio: Audio.AlarmEngine

    /** The countdown never exceeds the length it was set to. */
    ghost predicate Valid()
      reads this, audio
    {
      audio.Valid() && timeLeft <= initialTime
    }

    constructor (audio: Audio.AlarmEngine)
      requires audio.Valid()
      ensures Valid() && this.audio == audio
      ensures initialTime == 0 && timeLeft == 0 && !isRunning && !isRinging
    {
      this.audio := audio;
      initialTime := 0;
      timeLeft := 0;
      isRunning := false;
      isRinging := false;
    }

    /** The start/pause button: nothing at zero; otherwise it toggles running and, when ringing,
        stops the sound and the ringing. */
    method StartTimer()
      requires Valid()
      modifies this, audio
      ensures Valid()
      ensures old(timeLeft) == 0 ==> unchanged(this) && unchanged(audio)
      ensures old(timeLeft) != 0 ==> isRunning == !old(isRunning) && !isRinging
      ensures old(timeLeft) != 0 && old(isRinging) ==> audio.Silent()
      ensures !old(isRinging) ==> unchanged(audio)
      ensures timeLeft == old(timeLeft) && initialTime == old(initialTime)
    {
      if timeLeft == 0 {
        return;
      }
      isRunning := !isRunning;
      if isRinging {
        audio.Stop();
        isRinging := false;
      }
    }

    /** The reset button: back to the set length, stopped, silent. */
    method ResetTimer()
      requires Valid()
      modifies this, audio
      ensures Valid() && audio.Silent()
      ensures !isRunning && !isRinging && timeLeft == initialTime && initialTime == old(initialTime)
    {
      isRunning := false;
      timeLeft := initialTime;
      audio.Stop();
      isRinging := false;
    }

    /** A preset or custom length: stop and load it. The ringing flag and the sound are left as
        they were. */
    method SetPreset(seconds: nat)
      requires Valid()
      modifies this
      ensures Valid()
      ensures !isRunning && initialTime == seconds && timeLeft == seconds && isRinging == old(isRinging)
    {
      isRunning := false;
      initialTime := seconds;
      timeLeft := seconds;
    }

    /** A quick-preset button: load that preset's minutes as seconds. */
    method PresetButton(k: nat)
      requires Valid() && k < |PRESET_MINUTES|
      modifies this
      ensures Valid()
      ensures !isRunning && initialTime == timeLeft == PRESET_MINUTES[k] * 60 && isRinging == old(isRinging)
    {
      SetPreset(PRESET_MINUTES[k] * 60);
    }

    /** The custom-duration form: load hours, minutes and seconds as one length in seconds. */
    method HandleCustomSubmit(h: nat, m: nat, s: nat)
      requires Valid()
      modifies this
      ensures Valid()
      ensures !isRunning && initialTime == timeLeft == CustomTotal(h, m, s) && isRinging == old(isRinging)
    {
      SetPreset(h * 3600 + m * 60 + s);
    }

    /** One firing of the one-second interval: the effect arms it only while running with time
        left, so the countdown stops at zero. */
    method Tick()
      requires Valid()
      modifies this
      ensures Valid()
      ensures timeLeft == if old(isRunning) && old(timeLeft) > 0 then old(timeLeft) - 1 else old(timeLeft)
      ensures isRunning == old(isRunning) && isRinging == old(isRinging) && initialTime == old(initialTime)
    {
      if isRunning && timeLeft > 0 {
        timeLeft := timeLeft - 1;
      }
    }

    /** The countdown effect, run after a change with the settings and the audio clock `now`: on
        reaching zero while running it stops and, if sound is on, starts the looped alarm and rings. */
    method CountdownEffect(soundEnabled: bool, selectedSound: string, now: real)
      requires Valid()
      modifies this, audio
      ensures Valid()
      ensures timeLeft == old(timeLeft) && initialTime == old(initialTime)
      ensures old(timeLeft) == 0 && old(isRunning) ==> !isRunning
      ensures old(timeLeft) == 0 && old(isRunning) && soundEnabled ==>
        isRinging && audio.alarmInterval == Audio.Some(Audio.Repeat(Audio.Resolve(selectedSound), Audio.LOOP_PERIOD_MS)) &&
        audio.activeNodes == Audio.Tagged(Audio.Render(Audio.Resolve(selectedSound), now), old(audio.nextId)) &&
        audio.released == old(audio.released) + Audio.Ids(old(audio.activeNodes))
      ensures !(old(timeLeft) == 0 && old(isRunning) && soundEnabled) ==>
        isRinging == old(isRinging) && unchanged(audio)
      ensures !(old(timeLeft) == 0 && old(isRunning)) ==> isRunning == old(isRunning)
    {
      if isRunning && timeLeft > 0 {
        // the one-second interval is armed; its firings are Tick
      } else if timeLeft == 0 && isRunning {
        isRunning := false;
        if soundEnabled {
          audio.Play(true, selectedSound, now);
          isRinging := true;
        }
      }
    }

    /** The "STOP ALARM" button. */
    method StopAlarm()
      requires Valid()
      modifies this, audio
      ensures Valid() && audio.Silent() && !isRinging
      ensures isRunning == old(isRunning) && timeLeft == old(timeLeft) && initialTime == old(initialTime)
    {
      audio.Stop();
      isRinging := false;
    }
  }
}
